=== FILE: README.md ===
# RecipeStorage ledger model

A Dafny model of the `RecipeStorage` smart contract. `blockchain_integration.py`
wraps this contract's `createRecipe`, `getRecipe` and `getChefRecipes`. The
chatbot in `main.py` does not call it. The contract's Solidity source is not
part of this model. Its behaviour is taken from its test suite,
`test/RecipeStorage.js`, so this is a specification model of what those tests
assert.

The contract's storage is an immutable `Ledger` value with four parts:

- a map from recipe id to `Recipe(name, ingredients, instructions, chef)`;
- the id counter;
- each chef's list of owned ids;
- the log of emitted events (`RecipeCreated`, `RecipeUpdated`, `RecipeDeleted`).

Every entry point is a pure function:

- `createRecipe`, `updateRecipe` and `deleteRecipe` either return the new ledger or revert. A revert carries one of the two reasons `"Recipe does not exist"` and `"Not the recipe owner"`.
- `getRecipe`, `getRecipeCount` and `getChefRecipes` are views. They never change the ledger. `getRecipe` reverts on a missing id.

The caller (`msg.sender`) is an explicit `Address` parameter.

Modules:

- `RecipeStorage` (`recipe_storage.dfy`): the data model, the six entry points, the ledger invariant `Valid` and its preservation.
- `Transactions` (`transactions.dfy`): one `Call` datatype dispatched by `Step`. `Apply` runs a call as a transaction, and a revert there leaves the ledger unchanged. `Run` executes a sequence of calls. Its lemmas are about reachable ledgers: the invariant, id assignment, ownership, and that deleted ids are never reused.
- `Scenarios` (`scenarios.dfy`): each test case of the suite, stated as a lemma over a fresh deployment.
- `Seqs` (`seqs.dfy`): increasing id lists and removal of an id from a list.

The tests leave some behaviour open. This model fixes it as follows:

- Ids come from one counter, starting at 0, and are never reused.
- `getRecipeCount` returns that counter, so it counts every recipe ever created and does not drop on delete.
- A delete takes the id out of the chef's list. `getChefRecipes` therefore lists exactly the caller's live recipes, oldest first.
- `updateRecipe` and `deleteRecipe` check that the recipe exists before checking ownership. So a missing id reverts with `"Recipe does not exist"` whoever sends the call.
- Names, ingredients and instructions are stored without validation, so `createRecipe` never reverts. The tests show no check on them.
- `createRecipe` is taken to return the id it assigns. The tests observe that id only through the `RecipeCreated` event and `getRecipe`.

## Model

| member | source | states |
|---|---|---|
| RecipeStorage.Deploy | test/RecipeStorage.js:18-25 | a fresh contract satisfies the invariant, has count 0, no recipe, empty chef lists and an empty event log |
| RecipeStorage.GetRecipe | test/RecipeStorage.js:72-80 | `getRecipe(id)` returns the stored recipe exactly when the id is live, and otherwise reverts with "Recipe does not exist" |
| RecipeStorage.GetRecipeCount | test/RecipeStorage.js:52-60 | `getRecipeCount()`; no contract of its own: its meaning (the number of creates so far) is proved by `Transactions.RunCountsCreates` and `Scenarios.Reachable`, and its change per call by `CreateRecipe`, `UpdateRecipe`, `DeleteRecipe` and `Transactions.Step` |
| RecipeStorage.GetChefRecipes | test/RecipeStorage.js:82-86 | `getChefRecipes()` for the calling account; no contract of its own: its meaning (exactly the caller's live ids, oldest first) is proved by `RecipeStorage.ChefRecipesAreOwnedLiveIds` and `Scenarios.Reachable` |
| RecipeStorage.Revert.Message | test/RecipeStorage.js:77-80 | the two revert strings, "Recipe does not exist" and "Not the recipe owner" (also asserted at lines 117, 145 and 150); no contract of its own: which reason each call reverts with is stated by `GetRecipe`, `UpdateRecipe`, `DeleteRecipe` and `Transactions.Step` |
| RecipeStorage.CreateRecipe | test/RecipeStorage.js:28-60 | the new id equals the count before the call; the count rises by one; the new id reads back the sent fields with the sender as chef; every other id reads as before; the sender's list gains the id at its end; other chefs' lists are unchanged; exactly `RecipeCreated(id, name, sender)` is appended to the log |
| RecipeStorage.UpdateRecipe | test/RecipeStorage.js:98-130 | reverts with "Recipe does not exist" iff the id is not live, and with "Not the recipe owner" iff it is live and the sender is not its chef; on success the id reads back the new fields with the chef kept, and other recipes, chef lists and the count are unchanged; `RecipeUpdated(id, name, sender)` is appended |
| RecipeStorage.DeleteRecipe | test/RecipeStorage.js:142-157 | the same two revert conditions as update, both as iff; on success the id no longer reads back, other ids are unchanged, the sender's list loses exactly that id, other lists and the count are unchanged; `RecipeDeleted(id, sender)` is appended |
| RecipeStorage.CreatePreservesValid | test/RecipeStorage.js:82-86 | creation keeps the invariant: ids below the counter, chef lists increasing, and each chef's list holding exactly that chef's live ids |
| RecipeStorage.UpdatePreservesValid | test/RecipeStorage.js:98-109 | a successful update keeps the invariant |
| RecipeStorage.DeletePreservesValid | test/RecipeStorage.js:142-146 | a successful delete keeps the invariant |
| RecipeStorage.ChefRecipesAreOwnedLiveIds | test/RecipeStorage.js:82-86 | on a valid ledger, an id is in the caller's `getChefRecipes` list iff it is live and its chef is the caller, and the list is strictly increasing |
| RecipeStorage.NeverCreatedReverts | test/RecipeStorage.js:77-80 | on a valid ledger, any id at or beyond the count reverts with "Recipe does not exist" |
| Transactions.Step | test/RecipeStorage.js:27-158 | views return the ledger unchanged; create, count and chef-list calls never revert; `getRecipe` succeeds iff the id is live; a create, update or delete call yields exactly the ledger of `CreateRecipe`, `UpdateRecipe` or `DeleteRecipe`; `getRecipe`, update and delete revert with "Recipe does not exist" iff the id is not live; update and delete revert with "Not the recipe owner" iff the id is live and the sender is not its chef; create outputs the id equal to the old count, `getRecipe` the stored recipe, `getRecipeCount` the count and `getChefRecipes` the caller's list; the count rises by one exactly on a successful create |
| Transactions.Apply | test/RecipeStorage.js:111-118 | a reverted transaction leaves the ledger exactly as it was and carries the step's revert reason; a successful one yields the step's ledger and output |
| Transactions.StepPreservesValid | test/RecipeStorage.js:27-158 | every transaction, reverted or not, keeps the ledger invariant |
| Transactions.RunPreservesValid | test/RecipeStorage.js:18-25 | every sequence of transactions keeps the ledger invariant |
| Transactions.RunCountsCreates | test/RecipeStorage.js:52-60 | after any sequence of transactions the count has risen by exactly the number of `createRecipe` calls in it |
| Transactions.OnlyOwnerChangesRecipe | test/RecipeStorage.js:148-151 | a transaction changes or removes a live recipe only if it is an update or delete of that id sent by its chef, and no transaction changes a recipe's chef |
| Transactions.DeletedStaysDeleted | test/RecipeStorage.js:142-146 | an id below the count that does not read back never reads back again after any further transactions |
| Scenarios.FirstCreateStoresRecipe | test/RecipeStorage.js:28-40 | on a fresh contract the first create returns id 0, and `getRecipe(0)` returns exactly the sent name, ingredients and instructions with the sender as chef |
| Scenarios.FirstCreateEmitsEvent | test/RecipeStorage.js:42-50 | the first create's event log is exactly `[RecipeCreated(0, name, sender)]` |
| Scenarios.FirstCreateCountsOne | test/RecipeStorage.js:52-60 | `getRecipeCount` reads 0 on a fresh contract and 1 after one create |
| Scenarios.MissingRecipeReverts | test/RecipeStorage.js:77-80 | after one create, `getRecipe` of any other id reverts with "Recipe does not exist" |
| Scenarios.FirstCreateChefRecipes | test/RecipeStorage.js:82-86 | after one create, the creator's `getChefRecipes` returns exactly `[0]` |
| Scenarios.OwnerUpdates | test/RecipeStorage.js:120-130 | the owner's update succeeds, appends `RecipeUpdated(0, newName, owner)`, and `getRecipe(0)` then shows the new name |
| Scenarios.NonOwnerRejected | test/RecipeStorage.js:111-118 | another account's update and delete each revert with "Not the recipe owner" and leave the ledger unchanged |
| Scenarios.OwnerDeletes | test/RecipeStorage.js:153-157 | the owner's delete succeeds and appends `RecipeDeleted(0, owner)`, and after any later transactions `getRecipe(0)` reverts with "Recipe does not exist" |
| Scenarios.Reachable | test/RecipeStorage.js:82-86 | on any ledger reached from a deployment, `getChefRecipes` lists exactly the caller's live recipes, the count equals the number of creates, and ids at or beyond it revert |

## Left out

- `blockchain_integration.py` is not modelled. It covers the RPC connection, loading the ABI file, environment configuration, the nonce and gas-price queries, signing, submission and waiting for the receipt. All of that is network I/O or calls into `web3`/`eth_account`, whose code is not in the repository.
- `main.py` is not modelled. It is an interactive `input()` loop, prompt construction and a streamed call to a hosted language model: pure I/O and an external service.
- `scripts/deploy.js` is not modelled. It is deployment plumbing and console output; the model's `Deploy` stands for a fresh contract.
- Gas, transaction hashes, block numbers and timestamps are not modelled, because the tests assert none of them. Events are an append-only log of tagged values, not EVM logs with topics.
- Any creation timestamp the contract stores is not modelled; the tests read none.
- Ids are unbounded naturals. Any fixed width of the contract's counter (typically `uint256`), and its overflow, is not modelled.
- The zero address, and any rule the contract may apply to it, is not modelled. A transaction's sender is an arbitrary 160-bit value.
- Behaviour the tests do not pin down is fixed by the choices listed above. These are id reuse, whether the count drops on delete, whether a deleted id leaves the chef's list, the order of the existence and ownership checks, the absence of input validation (so `createRecipe` never reverts), and `createRecipe` returning the id it assigns. The real contract may differ on any of them.

=== FILE: recipe_storage.dfy ===
/**
  The RecipeStorage contract as an immutable ledger with pure transition
  functions. Each state-changing entry point either succeeds with a new
  ledger or reverts with one of the contract's two reason strings; a view
  function reads the ledger and never changes it.

  Behaviour the contract's test suite leaves open is fixed here as follows:
  ids come from one counter and are never reused, `GetRecipeCount` is that
  counter (it does not drop on delete), a deletion takes the id out of the
  chef's list, and update/delete check existence before ownership.
 */
module RecipeStorage {
  import opened Seqs

  /** An account address: 160 bits. */
  const ADDRESS_SPACE: int := 0x1_0000_0000_0000_0000_0000_0000_0000_0000_0000_0000
  newtype Address = a: int | 0 <= a < ADDRESS_SPACE

  type RecipeId = nat

  datatype Recipe = Recipe(name: string, ingredients: string, instructions: string, chef: Address)

  /** The contract's three events, in the order of their arguments. */
  datatype Event =
    | RecipeCreated(id: RecipeId, name: string, chef: Address)
    | RecipeUpdated(id: RecipeId, name: string, chef: Address)
    | RecipeDeleted(id: RecipeId, chef: Address)

  /** The two reasons a call reverts with. */
  datatype Revert = RecipeDoesNotExist | NotRecipeOwner {
    /** The reason string the contract reverts with. */
    function Message(): string
    {
      match this
      case RecipeDoesNotExist => "Recipe does not exist"
      case NotRecipeOwner => "Not the recipe owner"
    }
  }

  datatype Result<T> = Ok(value: T) | Reverted(reason: Revert)

  /**
    Contract storage plus its event log: the recipes by id, the id counter,
    each chef's ids, and every event emitted so far.
   */
  datatype Ledger = Ledger(
    recipes: map<RecipeId, Recipe>,
    nextId: RecipeId,
    chefRecipes: map<Address, seq<RecipeId>>,
    log: seq<Event>)

  /**
    What every reachable ledger satisfies: ids below the counter, each chef's
    list increasing, and a chef's list holding exactly the live ids whose
    chef is that account.
   */
  ghost predicate Valid(l: Ledger) {
    && (forall id :: id in l.recipes ==> id < l.nextId)
    && (forall c :: c in l.chefRecipes ==> Increasing(l.chefRecipes[c]))
    && (forall c, id :: id in GetChefRecipes(l, c) <==> id in l.recipes && l.recipes[id].chef == c)
  }

  /** A freshly deployed contract. */
  function Deploy(): (l: Ledger)
    ensures Valid(l)
    ensures GetRecipeCount(l) == 0
    ensures forall id :: GetRecipe(l, id) == Reverted(RecipeDoesNotExist)
    ensures forall c :: GetChefRecipes(l, c) == []
    ensures l.log == []
  {
    Ledger(map[], 0, map[], [])
  }

  // ---------------------------------------------------------------- views

  /** `getRecipe(id)`: the stored recipe, or a revert when there is none. */
  function GetRecipe(l: Ledger, id: RecipeId): (r: Result<Recipe>)
    ensures r.Ok? <==> id in l.recipes
    ensures r.Ok? ==> l.recipes[id] == r.value
    ensures r.Reverted? ==> r.reason == RecipeDoesNotExist
  {
    if id in l.recipes then Ok(l.recipes[id]) else Reverted(RecipeDoesNotExist)
  }

  /** `getRecipeCount()`: how many recipes were ever created. */
  function GetRecipeCount(l: Ledger): nat
  {
    l.nextId
  }

  /** `getChefRecipes()` called by `sender`: the ids that account owns. */
  function GetChefRecipes(l: Ledger, sender: Address): seq<RecipeId>
  {
    if sender in l.chefRecipes then l.chefRecipes[sender] else []
  }

  // ---------------------------------------------------------- transitions

  /**
    `createRecipe(name, ingredients, instructions)` sent by `sender`. Never
    reverts; returns the new ledger and the id it assigned.
   */
  function CreateRecipe(l: Ledger, sender: Address, name: string, ingredients: string, instructions: string)
    : (r: (Ledger, RecipeId))
    ensures r.1 == GetRecipeCount(l)
    ensures GetRecipeCount(r.0) == GetRecipeCount(l) + 1
    ensures GetRecipe(r.0, r.1) == Ok(Recipe(name, ingredients, instructions, sender))
    ensures forall id :: id != r.1 ==> GetRecipe(r.0, id) == GetRecipe(l, id)
    ensures GetChefRecipes(r.0, sender) == GetChefRecipes(l, sender) + [r.1]
    ensures forall c :: c != sender ==> GetChefRecipes(r.0, c) == GetChefRecipes(l, c)
    ensures r.0.log == l.log + [RecipeCreated(r.1, name, sender)]
  {
    var id := l.nextId;
    var l' := Ledger(
      l.recipes[id := Recipe(name, ingredients, instructions, sender)],
      id + 1,
      l.chefRecipes[sender := GetChefRecipes(l, sender) + [id]],
      l.log + [RecipeCreated(id, name, sender)]);
    (l', id)
  }

  /**
    `updateRecipe(id, name, ingredients, instructions)` sent by `sender`:
    reverts unless the recipe exists and `sender` is its chef; otherwise
    replaces the three text fields and keeps the chef.
   */
  function UpdateRecipe(l: Ledger, sender: Address, id: RecipeId, name: string, ingredients: string, instructions: string)
    : (r: Result<Ledger>)
    ensures r == Reverted(RecipeDoesNotExist) <==> GetRecipe(l, id).Reverted?
    ensures r == Reverted(NotRecipeOwner) <==> GetRecipe(l, id).Ok? && GetRecipe(l, id).value.chef != sender
    ensures r.Ok? ==> GetRecipe(r.value, id) == Ok(Recipe(name, ingredients, instructions, sender))
    ensures r.Ok? ==> forall other :: other != id ==> GetRecipe(r.value, other) == GetRecipe(l, other)
    ensures r.Ok? ==> forall c :: GetChefRecipes(r.value, c) == GetChefRecipes(l, c)
    ensures r.Ok? ==> GetRecipeCount(r.value) == GetRecipeCount(l)
    ensures r.Ok? ==> r.value.log == l.log + [RecipeUpdated(id, name, sender)]
  {
    if id !in l.recipes then Reverted(RecipeDoesNotExist)
    else if l.recipes[id].chef != sender then Reverted(NotRecipeOwner)
    else
      Ok(l.(recipes := l.recipes[id := Recipe(name, ingredients, instructions, sender)],
            log := l.log + [RecipeUpdated(id, name, sender)]))
  }

  /**
    `deleteRecipe(id)` sent by `sender`: reverts unless the recipe exists and
    `sender` is its chef; otherwise removes the recipe and its id from the
    chef's list.
   */
  function DeleteRecipe(l: Ledger, sender: Address, id: RecipeId): (r: Result<Ledger>)
    ensures r == Reverted(RecipeDoesNotExist) <==> GetRecipe(l, id).Reverted?
    ensures r == Reverted(NotRecipeOwner) <==> GetRecipe(l, id).Ok? && GetRecipe(l, id).value.chef != sender
    ensures r.Ok? ==> GetRecipe(r.value, id) == Reverted(RecipeDoesNotExist)
    ensures r.Ok? ==> forall other :: other != id ==> GetRecipe(r.value, other) == GetRecipe(l, other)
    ensures r.Ok? ==> forall x :: x in GetChefRecipes(r.value, sender) <==> x in GetChefRecipes(l, sender) && x != id
    ensures r.Ok? ==> forall c :: c != sender ==> GetChefRecipes(r.value, c) == GetChefRecipes(l, c)
    ensures r.Ok? ==> GetRecipeCount(r.value) == GetRecipeCount(l)
    ensures r.Ok? ==> r.value.log == l.log + [RecipeDeleted(id, sender)]
  {
    if id !in l.recipes then Reverted(RecipeDoesNotExist)
    else if l.recipes[id].chef != sender then Reverted(NotRecipeOwner)
    else
      Ok(Ledger(
        l.recipes - {id},
        l.nextId,
        l.chefRecipes[sender := Without(GetChefRecipes(l, sender), id)],
        l.log + [RecipeDeleted(id, sender)]))
  }

  // ----------------------------------------------------- invariant lemmas

  lemma CreatePreservesValid(l: Ledger, sender: Address, name: string, ingredients: string, instructions: string)
    requires Valid(l)
    ensures Valid(CreateRecipe(l, sender, name, ingredients, instructions).0)
  {
    var (l', id) := CreateRecipe(l, sender, name, ingredients, instructions);
    var old_ids := GetChefRecipes(l, sender);
    assert AllBelow(old_ids, id) by {
      forall i | 0 <= i < |old_ids| ensures old_ids[i] < id {
        var x := old_ids[i];
        assert x in GetChefRecipes(l, sender);
        assert x in l.recipes;
      }
    }
    if sender in l.chefRecipes {
      AppendIncreasing(old_ids, id);
    }
    forall c, x ensures x in GetChefRecipes(l', c) <==> x in l'.recipes && l'.recipes[x].chef == c {
      if c == sender {
        assert GetChefRecipes(l', c) == old_ids + [id];
        if x != id {
          assert x in GetChefRecipes(l', c) <==> x in old_ids;
          assert x in old_ids <==> x in l.recipes && l.recipes[x].chef == c;
        }
      } else {
        assert GetChefRecipes(l', c) == GetChefRecipes(l, c);
        assert x in GetChefRecipes(l, c) <==> x in l.recipes && l.recipes[x].chef == c;
        if x == id {
          assert x !in l.recipes;
        }
      }
    }
  }

  lemma UpdatePreservesValid(l: Ledger, sender: Address, id: RecipeId, name: string, ingredients: string, instructions: string)
    requires Valid(l)
    requires UpdateRecipe(l, sender, id, name, ingredients, instructions).Ok?
    ensures Valid(UpdateRecipe(l, sender, id, name, ingredients, instructions).value)
  {
  }

  lemma DeletePreservesValid(l: Ledger, sender: Address, id: RecipeId)
    requires Valid(l)
    requires DeleteRecipe(l, sender, id).Ok?
    ensures Valid(DeleteRecipe(l, sender, id).value)
  {
    var ids := GetChefRecipes(l, sender);
    var l' := Ledger(
      l.recipes - {id},
      l.nextId,
      l.chefRecipes[sender := Without(ids, id)],
      l.log + [RecipeDeleted(id, sender)]);
    assert l' == DeleteRecipe(l, sender, id).value;
    if sender in l.chefRecipes {
      WithoutIncreasing(ids, id);
    }
    forall c, x ensures x in GetChefRecipes(l', c) <==> x in l'.recipes && l'.recipes[x].chef == c {
      if c == sender {
        assert GetChefRecipes(l', c) == Without(ids, id);
        assert x in ids <==> x in l.recipes && l.recipes[x].chef == c;
      } else {
        assert GetChefRecipes(l', c) == GetChefRecipes(l, c);
        assert x in GetChefRecipes(l, c) <==> x in l.recipes && l.recipes[x].chef == c;
      }
    }
  }

  /** `getChefRecipes` lists exactly the live recipes of the caller, oldest first. */
  lemma ChefRecipesAreOwnedLiveIds(l: Ledger, c: Address)
    requires Valid(l)
    ensures forall id :: id in GetChefRecipes(l, c) <==> GetRecipe(l, id).Ok? && GetRecipe(l, id).value.chef == c
    ensures Increasing(GetChefRecipes(l, c))
  {
  }

  /** An id at or beyond the count was never assigned, so looking it up reverts. */
  lemma NeverCreatedReverts(l: Ledger, id: RecipeId)
    requires Valid(l)
    requires id >= GetRecipeCount(l)
    ensures GetRecipe(l, id) == Reverted(RecipeDoesNotExist)
  {
  }
}

=== FILE: scenarios.dfy ===
/**
  The contract test suite's scenarios, each on a fresh deployment: one
  `createRecipe` by `owner`, then the call under test. `owner` and `other`
  stand for two distinct test accounts.
 */
module Scenarios {
  import opened RecipeStorage
  import opened Transactions

  /** The ledger after `owner` creates one recipe on a fresh deployment. */
  function AfterFirstCreate(owner: Address, name: string, ingredients: string, instructions: string): Ledger
  {
    Apply(Deploy(), CreateRecipeCall(owner, name, ingredients, instructions)).0
  }

  /** The first recipe gets id 0 and reads back exactly as sent, with the sender as chef. */
  lemma FirstCreateStoresRecipe(owner: Address, name: string, ingredients: string, instructions: string)
    ensures Apply(Deploy(), CreateRecipeCall(owner, name, ingredients, instructions)).1 == Ok(Created(0))
    ensures Apply(AfterFirstCreate(owner, name, ingredients, instructions), GetRecipeCall(0)).1
            == Ok(RecipeOut(Recipe(name, ingredients, instructions, owner)))
  {
  }

  /** The first `createRecipe` emits `RecipeCreated(0, name, sender)` and nothing else. */
  lemma FirstCreateEmitsEvent(owner: Address, name: string, ingredients: string, instructions: string)
    ensures AfterFirstCreate(owner, name, ingredients, instructions).log == [RecipeCreated(0, name, owner)]
  {
  }

  /** The count goes from 0 to 1. */
  lemma FirstCreateCountsOne(owner: Address, name: string, ingredients: string, instructions: string)
    ensures Apply(Deploy(), GetRecipeCountCall).1 == Ok(CountOut(0))
    ensures Apply(AfterFirstCreate(owner, name, ingredients, instructions), GetRecipeCountCall).1 == Ok(CountOut(1))
  {
  }

  /** Looking up an id never created reverts with "Recipe does not exist". */
  lemma MissingRecipeReverts(owner: Address, name: string, ingredients: string, instructions: string, id: RecipeId)
    requires id != 0
    ensures Apply(AfterFirstCreate(owner, name, ingredients, instructions), GetRecipeCall(id)).1
            == Reverted(RecipeDoesNotExist)
  {
  }

  /** The creating chef's list is exactly `[0]`. */
  lemma FirstCreateChefRecipes(owner: Address, name: string, ingredients: string, instructions: string)
    ensures Apply(AfterFirstCreate(owner, name, ingredients, instructions), GetChefRecipesCall(owner)).1
            == Ok(IdsOut([0]))
  {
    var l := AfterFirstCreate(owner, name, ingredients, instructions);
    assert GetChefRecipes(Deploy(), owner) == [];
    assert GetChefRecipes(l, owner) == [0];
    assert Step(l, GetChefRecipesCall(owner)).value.1 == IdsOut(GetChefRecipes(l, owner));
  }

  /** The owner's update succeeds, emits `RecipeUpdated(0, newName, owner)`, and the new name reads back. */
  lemma OwnerUpdates(owner: Address, name: string, ingredients: string, instructions: string, newName: string)
    ensures
      var l := AfterFirstCreate(owner, name, ingredients, instructions);
      var (l', out) := Apply(l, UpdateRecipeCall(owner, 0, newName, ingredients, instructions));
      && out == Ok(Done)
      && l'.log == l.log + [RecipeUpdated(0, newName, owner)]
      && Apply(l', GetRecipeCall(0)).1 == Ok(RecipeOut(Recipe(newName, ingredients, instructions, owner)))
  {
  }

  /** Another account's update or delete reverts with "Not the recipe owner" and changes nothing. */
  lemma NonOwnerRejected(owner: Address, other: Address, name: string, ingredients: string, instructions: string,
                         newName: string)
    requires other != owner
    ensures
      var l := AfterFirstCreate(owner, name, ingredients, instructions);
      && Apply(l, UpdateRecipeCall(other, 0, newName, ingredients, instructions)) == (l, Reverted(NotRecipeOwner))
      && Apply(l, DeleteRecipeCall(other, 0)) == (l, Reverted(NotRecipeOwner))
  {
  }

  /**
    The owner's delete succeeds and emits `RecipeDeleted(0, owner)`; after it,
    whatever else happens, looking up id 0 reverts with "Recipe does not exist".
   */
  lemma OwnerDeletes(owner: Address, name: string, ingredients: string, instructions: string, later: seq<Call>)
    ensures
      var l := AfterFirstCreate(owner, name, ingredients, instructions);
      var (l', out) := Apply(l, DeleteRecipeCall(owner, 0));
      && out == Ok(Done)
      && l'.log == l.log + [RecipeDeleted(0, owner)]
      && GetRecipe(Run(l', later), 0) == Reverted(RecipeDoesNotExist)
  {
    var l := AfterFirstCreate(owner, name, ingredients, instructions);
    var l' := Apply(l, DeleteRecipeCall(owner, 0)).0;
    DeletedStaysDeleted(l', later, 0);
  }

  /**
    On any ledger reached from a deployment, `getChefRecipes` lists exactly
    the caller's live recipes in creation order, and a lookup of an id at or
    beyond the count reverts.
   */
  lemma Reachable(calls: seq<Call>, c: Address, id: RecipeId)
    ensures
      var l := Run(Deploy(), calls);
      && (forall x :: x in GetChefRecipes(l, c) <==> GetRecipe(l, x).Ok? && GetRecipe(l, x).value.chef == c)
      && GetRecipeCount(l) == CreateCount(calls)
      && (id >= CreateCount(calls) ==> GetRecipe(l, id) == Reverted(RecipeDoesNotExist))
  {
    var l := Run(Deploy(), calls);
    RunPreservesValid(Deploy(), calls);
    RunCountsCreates(Deploy(), calls);
    ChefRecipesAreOwnedLiveIds(l, c);
    if id >= CreateCount(calls) {
      NeverCreatedReverts(l, id);
    }
  }
}

=== FILE: seqs.dfy ===
/**
  Small facts about the id lists a chef owns: they are kept strictly
  increasing (creation order), an id is appended on creation and taken out
  on deletion.
 */
module Seqs {

  /** Strictly increasing, hence also free of duplicates. */
  ghost predicate Increasing(s: seq<nat>) {
    forall i, j :: 0 <= i < j < |s| ==> s[i] < s[j]
  }

  /** Every element of `s` is below `bound`. */
  ghost predicate AllBelow(s: seq<nat>, bound: nat) {
    forall i :: 0 <= i < |s| ==> s[i] < bound
  }

  /** `s` with every occurrence of `x` taken out, order kept. */
  function Without(s: seq<nat>, x: nat): (r: seq<nat>)
    ensures forall y :: y in r <==> y in s && y != x
    ensures |r| <= |s|
    ensures x !in s ==> r == s
  {
    if s == [] then []
    else if s[0] == x then Without(s[1..], x)
    else [s[0]] + Without(s[1..], x)
  }

  /** Taking an id out of an increasing list leaves it increasing. */
  lemma {:induction false} WithoutIncreasing(s: seq<nat>, x: nat)
    requires Increasing(s)
    ensures Increasing(Without(s, x))
    decreases |s|
  {
    if s != [] {
      var tail := s[1..];
      assert Increasing(tail) by {
        forall i, j | 0 <= i < j < |tail| ensures tail[i] < tail[j] {
          assert tail[i] == s[i + 1] && tail[j] == s[j + 1];
        }
      }
      WithoutIncreasing(tail, x);
      if s[0] != x {
        var rest := Without(tail, x);
        forall y | y in rest ensures s[0] < y {
          var k :| 0 <= k < |tail| && tail[k] == y;
          assert s[k + 1] == y;
        }
        var r := [s[0]] + rest;
        forall i, j | 0 <= i < j < |r| ensures r[i] < r[j] {
          assert r[j] == rest[j - 1];
          assert rest[j - 1] in rest;
          if i > 0 {
            assert r[i] == rest[i - 1];
          }
        }
      }
    }
  }

  /** Appending an id larger than every element keeps a list increasing. */
  lemma AppendIncreasing(s: seq<nat>, x: nat)
    requires Increasing(s)
    requires AllBelow(s, x)
    ensures Increasing(s + [x])
  {
  }
}

=== FILE: transactions.dfy ===
/**
  The contract's external interface as a single dispatcher over calls, plus
  the execution of a sequence of calls against one ledger. A reverted call
  leaves the ledger exactly as it was; a view call never changes it.
 */
module Transactions {
  import opened RecipeStorage

  /** One call to the contract, with the account it is sent from where that matters. */
  datatype Call =
    | CreateRecipeCall(sender: Address, name: string, ingredients: string, instructions: string)
    | GetRecipeCall(id: RecipeId)
    | GetRecipeCountCall
    | GetChefRecipesCall(sender: Address)
    | UpdateRecipeCall(sender: Address, id: RecipeId, name: string, ingredients: string, instructions: string)
    | DeleteRecipeCall(sender: Address, id: RecipeId)

  /** What a successful call returns to its caller. */
  datatype Output =
    | Created(id: RecipeId)
    | RecipeOut(recipe: Recipe)
    | CountOut(count: nat)
    | IdsOut(ids: seq<RecipeId>)
    | Done

  predicate IsView(c: Call) {
    c.GetRecipeCall? || c.GetRecipeCountCall? || c.GetChefRecipesCall?
  }

  /** The calls that can change a stored recipe, and the account they are sent from. */
  predicate TouchesRecipe(c: Call, id: RecipeId, sender: Address) {
    (c.UpdateRecipeCall? || c.DeleteRecipeCall?) && c.id == id && c.sender == sender
  }

  /** One call: the new ledger and the output, or the revert reason. */
  function Step(l: Ledger, c: Call): (r: Result<(Ledger, Output)>)
    ensures IsView(c) && r.Ok? ==> r.value.0 == l
    ensures c.CreateRecipeCall? || c.GetRecipeCountCall? || c.GetChefRecipesCall? ==> r.Ok?
    ensures c.GetRecipeCall? || c.UpdateRecipeCall? || c.DeleteRecipeCall? ==>
              (r == Reverted(RecipeDoesNotExist) <==> GetRecipe(l, c.id).Reverted?)
    ensures c.UpdateRecipeCall? || c.DeleteRecipeCall? ==>
              (r == Reverted(NotRecipeOwner) <==> GetRecipe(l, c.id).Ok? && GetRecipe(l, c.id).value.chef != c.sender)
    ensures c.CreateRecipeCall? ==> r.Ok? && r.value.1 == Created(GetRecipeCount(l))
    ensures c.GetRecipeCall? && r.Ok? ==> r.value.1 == RecipeOut(GetRecipe(l, c.id).value)
    ensures c.GetRecipeCountCall? ==> r.Ok? && r.value.1 == CountOut(GetRecipeCount(l))
    ensures c.GetChefRecipesCall? ==> r.Ok? && r.value.1 == IdsOut(GetChefRecipes(l, c.sender))
    ensures r.Ok? ==> GetRecipeCount(r.value.0) == GetRecipeCount(l) + (if c.CreateRecipeCall? then 1 else 0)
    ensures c.GetRecipeCall? ==> (r.Ok? <==> GetRecipe(l, c.id).Ok?)
    ensures c.CreateRecipeCall? ==> r.value.0 == CreateRecipe(l, c.sender, c.name, c.ingredients, c.instructions).0
    ensures c.UpdateRecipeCall? && r.Ok? ==>
              r.value == (UpdateRecipe(l, c.sender, c.id, c.name, c.ingredients, c.instructions).value, Done)
    ensures c.DeleteRecipeCall? && r.Ok? ==> r.value == (DeleteRecipe(l, c.sender, c.id).value, Done)
  {
    match c
    case CreateRecipeCall(sender, name, ingredients, instructions) =>
      var (l', id) := CreateRecipe(l, sender, name, ingredients, instructions);
      Ok((l', Created(id)))
    case GetRecipeCall(id) =>
      var found := GetRecipe(l, id);
      if found.Ok? then Ok((l, RecipeOut(found.value))) else Reverted(found.reason)
    case GetRecipeCountCall =>
      Ok((l, CountOut(GetRecipeCount(l))))
    case GetChefRecipesCall(sender) =>
      Ok((l, IdsOut(GetChefRecipes(l, sender))))
    case UpdateRecipeCall(sender, id, name, ingredients, instructions) =>
      var updated := UpdateRecipe(l, sender, id, name, ingredients, instructions);
      if updated.Ok? then Ok((updated.value, Done)) else Reverted(updated.reason)
    case DeleteRecipeCall(sender, id) =>
      var deleted := DeleteRecipe(l, sender, id);
      if deleted.Ok? then Ok((deleted.value, Done)) else Reverted(deleted.reason)
  }

  /** A call as a transaction: on a revert the ledger is left untouched. */
  function Apply(l: Ledger, c: Call): (r: (Ledger, Result<Output>))
    ensures r.1.Reverted? ==> r.0 == l
    ensures r.1.Reverted? <==> Step(l, c).Reverted?
    ensures r.1.Reverted? ==> r.1.reason == Step(l, c).reason
    ensures r.1.Ok? ==> (r.0, r.1.value) == Step(l, c).value
  {
    match Step(l, c)
    case Ok((l', out)) => (l', Ok(out))
    case Reverted(why) => (l, Reverted(why))
  }

  /** Calls executed one after another, each as its own transaction. */
  function Run(l: Ledger, calls: seq<Call>): Ledger
    decreases |calls|
  {
    if calls == [] then l else Run(Apply(l, calls[0]).0, calls[1..])
  }

  /** How many of the calls are `createRecipe`. */
  function CreateCount(calls: seq<Call>): nat
    decreases |calls|
  {
    if calls == [] then 0 else (if calls[0].CreateRecipeCall? then 1 else 0) + CreateCount(calls[1..])
  }

  // --------------------------------------------------------------- lemmas

  lemma StepPreservesValid(l: Ledger, c: Call)
    requires Valid(l)
    ensures Valid(Apply(l, c).0)
  {
    match c
    case CreateRecipeCall(sender, name, ingredients, instructions) =>
      CreatePreservesValid(l, sender, name, ingredients, instructions);
    case UpdateRecipeCall(sender, id, name, ingredients, instructions) =>
      if UpdateRecipe(l, sender, id, name, ingredients, instructions).Ok? {
        UpdatePreservesValid(l, sender, id, name, ingredients, instructions);
      }
    case DeleteRecipeCall(sender, id) =>
      if DeleteRecipe(l, sender, id).Ok? {
        DeletePreservesValid(l, sender, id);
      }
    case _ =>
  }

  /** Every ledger reachable from a deployment satisfies the invariant. */
  lemma {:induction false} RunPreservesValid(l: Ledger, calls: seq<Call>)
    requires Valid(l)
    ensures Valid(Run(l, calls))
    decreases |calls|
  {
    if calls != [] {
      StepPreservesValid(l, calls[0]);
      RunPreservesValid(Apply(l, calls[0]).0, calls[1..]);
    }
  }

  /**
    Id assignment: the counter advances by one per `createRecipe` and by
    nothing else, so from a deployment the k-th created recipe gets id k.
   */
  lemma {:induction false} RunCountsCreates(l: Ledger, calls: seq<Call>)
    ensures GetRecipeCount(Run(l, calls)) == GetRecipeCount(l) + CreateCount(calls)
    decreases |calls|
  {
    if calls != [] {
      RunCountsCreates(Apply(l, calls[0]).0, calls[1..]);
    }
  }

  /**
    Ownership: a successful call changes or removes an existing recipe only
    if it is an update or delete of that id sent by the recipe's chef; and
    no call ever changes a recipe's chef.
   */
  lemma OnlyOwnerChangesRecipe(l: Ledger, c: Call, id: RecipeId)
    requires Valid(l)
    requires id in l.recipes
    ensures GetRecipe(Apply(l, c).0, id) != GetRecipe(l, id) ==> TouchesRecipe(c, id, l.recipes[id].chef)
    ensures GetRecipe(Apply(l, c).0, id).Ok? ==> GetRecipe(Apply(l, c).0, id).value.chef == l.recipes[id].chef
  {
  }

  /** A recipe once deleted stays deleted: ids are never reused. */
  lemma {:induction false} DeletedStaysDeleted(l: Ledger, calls: seq<Call>, id: RecipeId)
    requires id < GetRecipeCount(l)
    requires GetRecipe(l, id).Reverted?
    ensures GetRecipe(Run(l, calls), id) == Reverted(RecipeDoesNotExist)
    decreases |calls|
  {
    if calls != [] {
      var l' := Apply(l, calls[0]).0;
      assert id < GetRecipeCount(l');
      assert GetRecipe(l', id).Reverted?;
      DeletedStaysDeleted(l', calls[1..], id);
    }
  }
}
